=== FILE: README.md ===
# django_ws_app — a verified model of the websocket gateway core

This project models the core of `django_ws_app`, a websocket gateway built on Django Channels, in
Dafny. It has five parts:

- **Connection registry** (`Manager`, manager.dfy). This is an ordered list of (user, consumer)
  records. It supports `add_consumer`, `remove_consumer`, and the queries that count the
  authenticated users in a room. Those queries keep the *first* record of each truthy user id, and
  only then filter by room.
- **Consumer** (`Consumer`, consumers.dfy). This is the per-connection state machine: the user, the
  rooms list, the frames sent to the client, and the bound handlers. It covers connect, receiving an
  already-decoded frame (close / AUTH / DATA / other), the authentication flow, dispatching data to
  the handlers with each handler's exception swallowed, and disconnect with its handler hooks.
  The Python classes `BaseConsumer`, `AuthConsumer` and `Consumer` are merged into this one class,
  the one the application routes connections to.
- **Handlers** (handlers.dfy):
  - request-name normalisation (`get_handler_name`);
  - schema validation and dispatch to `@action`-marked attributes only;
  - the append-only handler-class registry;
  - `BaseHandler`'s `whoiam`, `join_room`, `leave_room` and `disconnect`, which publish COUNT PERSON
    counts taken from the registry after the membership change.
- **Response envelope** (responses.dfy): `Response`, `SuccessResponse`, `FailedResponse`,
  `get_obj` and `__eq__`.
- **Gateway URL** (gateway.dfy): `SITE_NAME` rewritten from `http://`/`https://` to
  `ws://`/`wss://`. `str.replace` is defined through `split`/`join`.

The outside world becomes data:

- The channel layer is an object (channels.dfy) whose only state is the ordered log of
  `group_add` / `group_discard` / `group_send` requests it receives.
- Whatever is sent to a client is appended to that consumer's `trace`.
- The configured authenticator is a fixed function from credential to `Found(user)` or
  `Refused(exception)`.
- Python exceptions are values (`Outcome = Pass | Raised(e)`) wherever the source catches them or
  lets them escape.
- manager.dfy, consumers.dfy and handlers.dfy depend on one another, as the Python classes do, so
  they share the default module. users.dfy holds their imports and the `User` type.

The frame tags are `AUTH = "0"` and `DATA = "1"`. django_ws_app/message_types.py is not part of this
model. `"0"` is the AUTH tag used by the websocket test (tests_asgi.py:26,31). `"1"` for DATA is an
assumption; the model only relies on the two tags being different.

## Model

| member | source | states |
|---|---|---|
| Lists.RemoveFirst | manager.py:17-22 | `list.remove`: the result is the list without its first element equal to `x`, everything before and after it kept in order |
| Lists.RemoveFirstCount | manager.py:17-22 | removal takes out exactly one copy of the element: one element shorter, multiset minus that element |
| Lists.AppendThenRemove | manager.py:10-22 | `add_consumer` then `remove_consumer` of the same record restores the registry when the record was not already there; otherwise the older copy is removed and the new one stays at the end |
| Lists.AppendThenRemoveReorders | manager.py:10-22 | a concrete registry where add-then-remove does not restore the list, because the older copy is the one removed |
| Responses.SuccessResponse | response.py:27-31 | a success response always carries result "success" and keeps the given name and data |
| Responses.FailedResponse | response.py:34-38 | a failed response always carries result "failed" and keeps the given name and data |
| Responses.GetObjShape | response.py:22-24 | `get_obj` has exactly the keys response, data and result, holding the three fields |
| Responses.GetObj | response.py:22-24 | reading the `get_obj` mapping back gives the original response, so `get_obj` loses nothing |
| Responses.GetObjInjective | response.py:22-24 | two responses have the same mapping if and only if they are the same response |
| Responses.Equals | response.py:12-17 | `__eq__` holds exactly when the two (response, data, result) triples are equal, and then the result tags agree |
| Responses.SuccessIsNeverFailure | response.py:12-17 | a success and a failure are never equal, whatever their names and data; two successes are equal iff name and data are |
| Channels.ChannelLayer.GroupAdd | consumers.py:46 | `group_add` logs one Added(group, channel) for a string group name, and raises TypeError without logging for any other name |
| Channels.ChannelLayer.GroupDiscard | consumers.py:51 | `group_discard` logs one Discarded(group, channel) for a string group name, and raises TypeError without logging for any other name |
| Channels.ChannelLayer.GroupSend | handlers.py:21-28 | `group_send` logs exactly one Published(group, payload type, payload) at the end of the log |
| Gateway.FindFirst | views.py:9-10 | the leftmost occurrence of the pattern: it is an occurrence, none occurs earlier, and there is none iff the text does not contain the pattern |
| Gateway.Split | views.py:9-10 | splitting always yields at least one piece |
| Gateway.Replace | views.py:9-10 | a text that does not contain the pattern is returned unchanged |
| Gateway.SplitJoin | views.py:9-10 | joining the pieces with the pattern gives the text back, and no piece contains the pattern, so `replace` rewrites every occurrence |
| Gateway.PiecesAvoid | views.py:9-10 | a piece of a joined string avoids every pattern the joined string avoids |
| Gateway.JoinAvoids | views.py:9-10 | joining pattern-free pieces with a separator that cannot overlap the pattern creates no occurrence |
| Gateway.ReplaceAvoids | views.py:9-10 | after `replace(pat, repl)` the text contains no `pat`, nor any other pattern it avoided that `repl` cannot help form |
| Gateway.WebsocketUrl | views.py:6-11 | not found exactly when SITE_NAME is unset or empty; an address without either scheme is returned unchanged |
| Gateway.WebsocketUrlHasNoHttpScheme | views.py:9-11 | after the two rewrites no `http://` and no `https://` is left anywhere in the address |
| Dedup | manager.py:26-32 | the scan of `get_auth_clients` returns no more records than it scans, each one taken from the registry |
| InRoom | manager.py:36 | the room filter returns no more records than it is given |
| InRoomMembers | manager.py:36 | the filter keeps exactly the records whose consumer has joined the room: every kept record is in the input and in the room, and every input record in the room is kept |
| DedupIds | manager.py:28-31 | the scan keeps only truthy ids not seen before, never two records with the same id, and its ids are exactly the truthy ids of the registry not seen before |
| DedupFirst | manager.py:28-31 | each kept record is the first record of its id in the registry |
| DedupOrdered | manager.py:28-31 | the kept records keep registry order: the positions of their first records increase |
| AuthClientsSpec | manager.py:24-32 | `get_auth_clients` has only truthy ids, pairwise distinct, exactly the registry's truthy ids, each the first record with that id, in registry order |
| DistinctIdsCount | manager.py:40 | the length of a list whose ids are pairwise distinct is the number of its ids |
| InRoomDistinct | manager.py:34-36 | filtering by room keeps ids pairwise distinct |
| CountedIds | manager.py:24-40 | the ids counted for a room are the truthy ids whose first record's consumer has joined the room |
| CountPersonIsFirstRecordsInRoom | manager.py:24-40 | the room count is the number of truthy ids whose first record is in the room, so a user whose first connection is elsewhere is not counted; it is at most the registry length |
| EntriesOfUpdates | manager.py:10-22 | removing a consumer's record leaves one record of that consumer fewer, adding one leaves one more, and a count of zero means no record of it at all |
| Manager.constructor | manager.py:3 | the registry starts empty |
| Manager.AddConsumer | manager.py:10-15 | appends exactly one record (the consumer's current user, the consumer) at the end; earlier records are unchanged |
| Manager.RemoveConsumer | manager.py:17-22 | removes only the first record equal to (current user, consumer), keeping the rest in order; with no such record it raises ValueError and changes nothing |
| Manager.GetAuthClients | manager.py:24-32 | the loop with the seen-set returns exactly the first-record-per-truthy-id list characterised by AuthClientsSpec |
| Manager.GetAuthClientsRoom | manager.py:34-36 | the order-preserving filter of `get_auth_clients` to the records whose consumer has joined the room |
| Manager.GetCountAuthClients | manager.py:38-40 | the number of distinct truthy ids whose first record's consumer is in the room, never more than the number of records |
| NatToString | consumers.py:91 | Python's `str` of a non-negative id: at least one character, all decimal digits, no leading zero, and two or more digits from 10 on |
| NatToStringValue | consumers.py:91 | the digits `str` writes for `n` read back, most significant first, as exactly `n` |
| UserGroup | consumers.py:91 | `str(user.id)`: a stored user's group is the decimal writing of the id, with `-` in front exactly when the id is negative, so it never starts like the anonymous user's "None" |
| NatToStringInjective | consumers.py:91 | two non-negative ids are written alike iff they are equal |
| UserGroupInjective | consumers.py:91 | two users share a group exactly when both are anonymous or both are stored with the same id |
| RefusalUnregisters | consumers.py:93-106 | for a connection registered once, a refused credential leaves no record of it under any user, so its next AUTH frame (and its disconnect) fails in `remove_consumer` with ValueError |
| SuccessReregisters | consumers.py:93-102 | for a connection registered once, an accepted credential leaves it registered exactly once, under the new user |
| Consumer.constructor | consumers.py:131-133 | one fresh handler per registered class, in registration order, each bound to this connection; no rooms, nothing sent yet |
| Consumer.SendPayload | consumers.py:40-42 | exactly one `[type, payload]` frame is sent to the client |
| Consumer.SendPayloadEvent | consumers.py:36-38 | a group message delivered to the connection is forwarded as one frame with its type and payload |
| Consumer.AddRoom | consumers.py:44-47 | subscribes to the group, then appends the room even when it is already listed; a non-string room raises TypeError before anything changes; the connection invariant is kept |
| Consumer.RemoveRoom | consumers.py:49-53 | unsubscribes, then removes the first occurrence of the room only, or nothing when the room is absent; a non-string room raises TypeError before anything changes; the connection invariant is kept |
| Consumer.SendResponse | consumers.py:76-78 | exactly one AUTH frame carrying the status word |
| Consumer.Connect | consumers.py:59-61 | accept, append exactly one record under the session user, then SUCCESS if that user is authenticated and WHOAREYOU otherwise; the connection invariant is kept |
| Consumer.HandleAuthContext | consumers.py:93-106 | without the current record: ValueError, before the authenticator runs. Found: re-registered under the new user, SUCCESS, joins group `str(user.id)`. InvalidToken/InvalidCredentials: TOKENEXPIRED, stays unregistered. Other exceptions: propagate, record removed. The connection invariant is kept |
| Consumer.HandleMessage | consumers.py:164-170 | every handler, in registration order, handles the message; each one's outcome is what its own dispatch decides. A handler acts when the message reaches one of its actions and that action does not raise. When no handler acts, nothing changes; when exactly one acts, the connection's rooms, frames and channel-layer log are exactly what that action makes of them (ActionEffect), whatever the handlers before and after it raised; the user and the registry never change |
| RaisingHandlerDoesNotStopOthers | consumers.py:164-170 | a failure does not stop the later handlers: when BaseHandler's `join_room` raises TypeError on a non-string room, a later class marking `join_room` is still the sole handler that acts, so its action takes effect |
| Consumer.DispatchNext | consumers.py:166-170 | one loop step: handler `i` runs, and the record of who has dispatched so far, and of that action's effect while it is the only one, stays true |
| CountedStep | consumers.py:164-170 | adding handler `i`'s outcome and decision keeps the record of the first `i` handlers true for the first `i + 1` |
| Consumer.DispatchTo | consumers.py:166-170 | one guarded handler call: its outcome is swallowed; a dispatched action takes exactly the effect ActionEffect gives it; a handler that does not act (no action reached, or the action raised) changes nothing, room head counts included |
| Consumer.Receive | consumers.py:151-162 | under two elements: close, nothing else. DATA: the handlers, with the sole dispatcher's effect as in HandleMessage. AUTH: the auth flow; when it raises InvalidData the connection is closed, the record is left removed, and the user and the channel-layer log are unchanged. Any other tag: nothing. The connection invariant is kept |
| Consumer.Disconnect | consumers.py:143-149 | removes the current record first; ValueError there stops the hooks; otherwise every handler's hook runs, in order, against the registry without this record |
| Consumer.RunDisconnectHooks | consumers.py:145-149 | each BaseHandler hook publishes its COUNT PERSON block, in handler order; other hooks publish nothing |
| Consumer.DisconnectHandler | consumers.py:146-149 | one hook: only the channel-layer log grows, by that handler's block |
| AnonymousThenToken | tests_asgi.py:16-34 | an anonymous connection is told WHOAREYOU, then SUCCESS after an AUTH frame whose token resolves to a stored user, which is now the connection's only record |
| GetHandlerName | handlers.py:30-32 | each character normalised in place (space to `_`, then lower-case); same length, no space and no capital letter left |
| GetHandlerNameIdempotent | handlers.py:30-32 | normalising twice is the same as normalising once |
| JoinRoomRequestName | handlers.py:30-32 | the request "Join Room" normalises to `join_room` |
| BaseAttribute | handlers.py:53-54 | on BaseHandler exactly `whoiam`, `join_room` and `leave_room` carry the `action` marker, each to its own action |
| Lookup | handlers.py:53-54 | `getattr` on a BaseHandler is BaseAttribute; on another class an attribute exists iff the class has it, is marked iff the class marks it, and then names the action of that name |
| SchemaOpen | handlers.py:13-19 | the schema constrains only `request` (a string) and the presence of `request` and `data`: any other key may be changed freely |
| Resolve | handlers.py:50-58 | rejected iff the schema fails; invoked iff the derived name is an attribute carrying the `action` marker, then with exactly that action and the message's data (the no-argument branch is never taken) |
| JoinRoomDispatch | handlers.py:124-125 | every valid request naming `join_room` reaches BaseHandler's `join_room` with the data as the room |
| UnknownRequestIsIgnored | handlers.py:53-54 | a name that no class has as a marked attribute is dispatched nowhere |
| CountPersonEvents | handlers.py:100-103 | one COUNT PERSON message per listed room |
| CountPersonEventsAt | handlers.py:100-103 | the i-th message is the COUNT PERSON of the i-th room, in list order, duplicates included |
| Handlers.constructor | handlers.py:77 | the registry of handler classes starts empty |
| Handlers.Register | handlers.py:84-88 | appends one class; nothing registered before moves or disappears |
| Handlers.GetHandlers | handlers.py:90-92 | the registered classes, in registration order |
| DefaultHandlers | consumers.py:173 | at import time the registry holds BaseHandler only |
| Handler.constructor | handlers.py:43-44 | the handler is bound to its consumer |
| Handler.Send | handlers.py:60-62 | one DATA frame whose payload is the response's `get_obj` mapping, to this handler's client |
| Handler.SendGroup | handlers.py:64-66 | one DATA group message whose payload is the response's `get_obj` mapping |
| Handler.SendEventCountPerson | handlers.py:110-115 | publishes the room's COUNT PERSON taken from the registry as it is now; no room list changes |
| Handler.WhoIAm | handlers.py:117-122 | answers WHOIAM with the connection's current user; nothing else changes |
| Handler.JoinRoom | handlers.py:124-129 | joins, answers JOIN ROOM, then publishes the count taken after the join; a non-string room raises TypeError with nothing sent |
| Handler.LeaveRoom | handlers.py:131-136 | leaves, answers LEAVE ROOM, then publishes the count taken after leaving; a non-string room raises TypeError with nothing sent |
| Handler.Announce | handlers.py:128-129 | the shared tail of `join_room` and `leave_room`: exactly one reply frame naming the room, then exactly one COUNT PERSON message with the count taken from the registry as it is now; the rooms are untouched |
| Handler.Run | handlers.py:54-56 | calls the marked method of the action with the data, with the effect that method specifies |
| Handler.HandleMessage | handlers.py:50-58 | ValidationError for a bad message; nothing happens when no marked attribute matches; otherwise exactly one action runs |
| Handler.Disconnect | handlers.py:100-103 | BaseHandler publishes one COUNT PERSON per element of the connection's rooms, in order, duplicates included; other classes publish nothing |

## Left out

- JSON text: `json.loads` of an incoming frame and `json.dumps` of outgoing payloads are not
  modelled. Frames arrive already decoded as a list of JSON values. A frame that is not valid JSON,
  or that is not a list, is not modelled.
- Channel names: the channel layer's check of group names by pattern and length is not modelled.
  Only non-string names are refused, with TypeError.
- Authenticators: the authenticator classes, JWT decoding and `str_to_class` (reflection over the
  loaded modules) are not modelled. The configured authenticator is a fixed function given to each
  consumer.
- Sessions: Django's `login` session persistence is reduced to setting the connection's user.
- Singletons: the `__new__` singletons of `Manager` and `Handlers` become one explicitly
  constructed object that is shared.
- Concurrency: several connections running at once are not modelled. Each operation runs to
  completion.
- Logging, `traceback.print_exc` and the HTTP response objects are left out.
- `Response.__ne__` calls itself without end, and `Response.__hash__` fails on dictionary data.
  Neither is modelled.
- AuthConsumer.receive (consumers.py:63-74) is not modelled on its own. It is only
  reached through `Consumer.receive`, which has already closed frames shorter than two elements and
  taken DATA frames, so its own length check never fires there and its AUTH branch is the one the
  model gives.
- Consumer.Connect: does not run the handlers' connect hooks. BaseHandler's hook does nothing, and
  the hooks of other handler classes are code outside this model.
- Handler.Run: the bodies of the actions of handler classes other than BaseHandler are not part of
  this model. Invoking one only records an `Invoked` effect.
- Consumer.DispatchTo: a handler method of another class that raises is not modelled. Only
  validation errors and BaseHandler's TypeError on a non-string room are.
- Consumer.HandleMessage: when two or more handlers dispatch the same message, the contract gives
  only that the frames and the channel-layer log grow, not how their effects combine.
- Consumer.RunDisconnectHooks: the disconnect hooks of handler classes other than BaseHandler are
  code outside this model and are taken to do nothing, as AbstractHandler's hook does; an exception
  raised by one is not modelled. BaseHandler's hook raises none.
- GetHandlerName: lower-casing covers ASCII letters only. Python's `str.lower` also folds other Unicode
  letters.
- Handler.WhoIAm: the user is written as its username, the way `json.dumps(..., default=str)` writes a
  Django user.

=== FILE: channels.dfy ===
/**
 * The channel layer the consumers talk to (an external publish/subscribe service), reduced to the
 * ordered log of requests it receives. Like the real layer, it refuses a group name that is not a string.
 */
module Channels {
  import opened Json
  import opened Errors

  datatype Event =
    | Added(group: string, channel: string)
    | Discarded(group: string, channel: string)
    | Published(group: string, payloadType: string, payload: Value)

  class ChannelLayer {
    var events: seq<Event>

    constructor()
      ensures events == []
    {
      events := [];
    }

    /** `group_add(group, channel)`. */
    method GroupAdd(group: Value, channel: string) returns (r: Outcome)
      modifies this
      ensures r == if group.Str? then Pass else Raised(TypeError)
      ensures events == if group.Str? then old(events) + [Added(group.s, channel)] else old(events)
    {
      if group.Str? {
        events := events + [Added(group.s, channel)];
        r := Pass;
      } else {
        r := Raised(TypeError);
      }
    }

    /** `group_discard(group, channel)`. */
    method GroupDiscard(group: Value, channel: string) returns (r: Outcome)
      modifies this
      ensures r == if group.Str? then Pass else Raised(TypeError)
      ensures events == if group.Str? then old(events) + [Discarded(group.s, channel)] else old(events)
    {
      if group.Str? {
        events := events + [Discarded(group.s, channel)];
        r := Pass;
      } else {
        r := Raised(TypeError);
      }
    }

    /** `group_send(group, {"type": "send_payload_event", "payload_type": ..., "payload_data": ...})`. */
    method GroupSend(group: string, payloadType: string, payload: Value)
      modifies this
      ensures events == old(events) + [Published(group, payloadType, payload)]
    {
      events := events + [Published(group, payloadType, payload)];
    }
  }
}

=== FILE: consumers.dfy ===
// The websocket consumer (consumers.py): the per-connection state machine that authenticates the
// client, registers the connection with the registry and dispatches data frames to the handlers.

/** The two frame types: `["0", payload]` carries authentication, `["1", payload]` carries data. */
const AUTH: string := "0"
const DATA: string := "1"

/** What the configured authenticator's `find_user` does with a credential: return a user or raise. */
datatype AuthResult = Found(user: User) | Refused(error: Exception)

/**
 * What the connection does towards its own client, in order. `Invoked` is not sent to the client: it
 * records that an action of a handler class outside this model ran.
 */
datatype Effect =
  | Accepted
  | Sent(payloadType: string, payload: Value)
  | Closed
  | Invoked(handler: HandlerClass, action: string, arg: Value)

/** `str(user)`, as `json.dumps(..., default=str)` writes a user object. */
function UserValue(u: User): Value
{
  if u.StoredUser? then Str(u.username) else Str("AnonymousUser")
}

function Digit(d: nat): (c: char)
  requires d < 10
  ensures '0' <= c <= '9' && c as int == '0' as int + d
{
  ('0' as int + d) as char
}

/** Python's `str` on a non-negative int: its decimal digits, most significant first, with no leading zero. */
function NatToString(n: nat): (s: string)
  ensures 1 <= |s| && (n >= 10 ==> |s| >= 2)
  ensures forall i :: 0 <= i < |s| ==> '0' <= s[i] <= '9'
  ensures s[0] == '0' ==> n == 0
{
  if n < 10 then [Digit(n)] else NatToString(n / 10) + [Digit(n % 10)]
}

/** The value of a string of decimal digits, most significant first; the empty string reads as 0. */
function DecimalValue(s: string): nat
  requires forall i :: 0 <= i < |s| ==> '0' <= s[i] <= '9'
{
  if s == [] then 0 else 10 * DecimalValue(s[..|s| - 1]) + (s[|s| - 1] as int - '0' as int)
}

/** Reading the digits back gives the number: `str` writes exactly `n`. */
lemma {:induction false} NatToStringValue(n: nat)
  ensures DecimalValue(NatToString(n)) == n
{
  if n >= 10 {
    var s := NatToString(n);
    assert s[..|s| - 1] == NatToString(n / 10);
    NatToStringValue(n / 10);
  }
}

/** Distinct numbers are written differently. */
lemma {:induction false} NatToStringInjective(m: nat, n: nat)
  ensures NatToString(m) == NatToString(n) <==> m == n
{
  if m != n {
    var a, b := NatToString(m), NatToString(n);
    if m < 10 && n < 10 {
      assert a[0] != b[0];
    } else if m < 10 || n < 10 {
      assert |a| != |b|;
    } else if m % 10 != n % 10 {
      assert a[|a| - 1] != b[|b| - 1];
    } else {
      NatToStringInjective(m / 10, n / 10);
      assert a[..|a| - 1] == NatToString(m / 10);
      assert b[..|b| - 1] == NatToString(n / 10);
    }
  }
}

/** `str(user.id)`: the group a user's connections join; the anonymous user's id None gives "None". */
function UserGroup(u: User): (g: string)
  ensures u.StoredUser? ==> 1 <= |g| && (g[0] == '-' <==> u.id < 0) && g[0] != 'N'
  ensures u.StoredUser? && u.id < 0 ==> g[1..] == NatToString(-u.id)
  ensures u.StoredUser? && u.id >= 0 ==> g == NatToString(u.id)
{
  if !u.StoredUser? then "None"
  else if u.id < 0 then "-" + NatToString(-u.id)
  else NatToString(u.id)
}

/** Two users share a group exactly when both are anonymous or both are stored with the same id. */
lemma UserGroupInjective(u: User, v: User)
  ensures UserGroup(u) == UserGroup(v) <==>
            (u.StoredUser? <==> v.StoredUser?) && (u.StoredUser? ==> u.id == v.id)
{
  if u.StoredUser? && v.StoredUser? {
    if u.id < 0 && v.id < 0 {
      NatToStringInjective(-u.id, -v.id);
    } else if u.id >= 0 && v.id >= 0 {
      NatToStringInjective(u.id, v.id);
    }
  }
}

/** Whether an exception is one `handle_auth_context` answers with TOKENEXPIRED. */
predicate IsAuthError(e: Exception)
{
  e == InvalidToken || e == InvalidCredentials
}

/**
 * How `handle_auth_context` ends: the registry removal raises ValueError when the connection's current
 * record is missing, before the credential is looked at; authentication errors are answered; any other
 * exception of the authenticator propagates.
 */
function AuthOutcome(registered: bool, found: AuthResult): Outcome
{
  if !registered then Raised(ValueError)
  else match found
    case Found(_) => Pass
    case Refused(error) => if IsAuthError(error) then Pass else Raised(error)
}

/**
 * A handler of class `cls` acts on `message`: the message reaches one of its actions and that action
 * does not raise. A handler that does not act leaves the connection as it was.
 */
predicate Acts(cls: HandlerClass, message: Value)
{
  Resolve(cls, message).Invoke? && HandlerOutcome(Resolve(cls, message)) == Pass
}

/** Of the handlers `hs`, the one at `j` is the only one that acts on `message`. */
predicate SoleDispatcher(hs: seq<Handler>, message: Value, j: int)
{
  0 <= j < |hs| && Acts(hs[j].cls, message) &&
  forall k :: 0 <= k < |hs| && k != j ==> !Acts(hs[k].cls, message)
}

/**
 * A handler that raises does not stop the ones after it: when BaseHandler's `join_room` raises
 * TypeError on a room that is not a string, a later class marking `join_room` is still the one that
 * acts on the message, so `handle_message` gives that class's action its effect.
 */
lemma RaisingHandlerDoesNotStopOthers(hs: seq<Handler>, message: Value)
  requires |hs| == 2 && hs[0].cls == BaseHandler && hs[1].cls.OtherHandler?
  requires "join_room" in hs[1].cls.attributes && hs[1].cls.attributes["join_room"]
  requires MatchesSchema(message) && RequestName(message) == "join_room" && !message.fields["data"].Str?
  ensures HandlerOutcome(Resolve(hs[0].cls, message)) == Raised(TypeError)
  ensures SoleDispatcher(hs, message, 1)
{
}

/** What a handler action can change on its connection: the rooms, the frames sent, the channel-layer log. */
datatype View = View(rooms: seq<string>, trace: seq<Effect>, events: seq<Event>)

/** The rooms after leaving `room`: its first occurrence removed, or the list as it is when it is absent. */
function LeftRooms(rooms: seq<string>, room: string): seq<string>
{
  if room in rooms then RemoveFirst(rooms, room) else rooms
}

/** The room a `join_room` or `leave_room` argument names; a non-string names none. */
function RoomOf(arg: Value): string
{
  if arg.Str? then arg.s else ""
}

/**
 * What running `action` with `arg`, by a handler of class `cls` on the connection of `user` with
 * channel `channel`, makes of `before`, when `count` people are in the room afterwards. `whoiam`
 * answers with the user; `join_room` joins, answers and publishes the count; `leave_room` leaves,
 * answers and publishes the count; an action of another class is recorded. A room that is not a
 * string is refused by the channel layer before anything changes.
 */
predicate ActionEffect(cls: HandlerClass, action: Action, arg: Value, user: User, channel: string,
                       before: View, after: View, count: nat)
{
  match action
  case WhoIAm =>
    after == before.(trace := before.trace + [Reply(SuccessResponse("WHOIAM", Obj(map["user" := UserValue(user)])))])
  case JoinRoom =>
    if !arg.Str? then after == before
    else
      after == View(before.rooms + [arg.s],
                    before.trace + [Reply(SuccessResponse("JOIN ROOM", Obj(map["room" := arg])))],
                    before.events + [Added(arg.s, channel), CountMessage(arg.s, count)])
  case LeaveRoom =>
    if !arg.Str? then after == before
    else
      after == View(LeftRooms(before.rooms, arg.s),
                    before.trace + [Reply(SuccessResponse("LEAVE ROOM", Obj(map["room" := arg])))],
                    before.events + [Discarded(arg.s, channel), CountMessage(arg.s, count)])
  case Custom(name) =>
    after == before.(trace := before.trace + [Invoked(cls, name, arg)])
}

/**
 * What the `handle_message` loop has seen of the handlers so far: whether none has dispatched yet,
 * the first one that did and whether it is still the only one.
 */
datatype Tally = Tally(quiet: bool, sole: bool, first: nat)

/** The record after handler `i`, which invokes an action exactly when `invokes`. */
function NextTally(t: Tally, i: nat, invokes: bool): Tally
{
  if !invokes then t else if t.quiet then Tally(false, true, i) else t.(sole := false)
}

/** `t` and `outcomes` record truly what the first `i` of the handlers `hs` do with `message`. */
ghost predicate Counted(hs: seq<Handler>, message: Value, i: nat, t: Tally, outcomes: seq<Outcome>)
{
  i <= |hs| && |outcomes| == i &&
  (forall k :: 0 <= k < i ==> outcomes[k] == HandlerOutcome(Resolve(hs[k].cls, message))) &&
  (t.quiet <==> forall k :: 0 <= k < i ==> !Acts(hs[k].cls, message)) &&
  (!t.quiet ==> t.first < i && Acts(hs[t.first].cls, message)) &&
  (!t.quiet && t.sole ==> forall k :: 0 <= k < i && k != t.first ==> !Acts(hs[k].cls, message)) &&
  (!t.sole ==> forall j :: 0 <= j < |hs| ==> !SoleDispatcher(hs, message, j))
}

/** Handler `i`'s outcome and decision keep the record true. */
lemma CountedStep(hs: seq<Handler>, message: Value, i: nat, t: Tally, outcomes: seq<Outcome>, r: Outcome)
  requires i < |hs| && Counted(hs, message, i, t, outcomes)
  requires r == HandlerOutcome(Resolve(hs[i].cls, message))
  ensures Counted(hs, message, i + 1, NextTally(t, i, Acts(hs[i].cls, message)), outcomes + [r])
{
}

/**
 * A connection registered once whose credential is refused loses its only record: no record of it is
 * left under any user, so its next AUTH frame and its disconnect both end in ValueError.
 */
lemma RefusalUnregisters(es: seq<Entry>, u: User, c: Consumer, found: AuthResult)
  requires Entry(u, c) in es && EntriesOf(es, c) == 1
  ensures forall d :: d in RemoveFirst(es, Entry(u, c)) ==> d.consumer != c
  ensures forall v: User :: AuthOutcome(Entry(v, c) in RemoveFirst(es, Entry(u, c)), found) == Raised(ValueError)
{
  var rest := RemoveFirst(es, Entry(u, c));
  EntriesOfUpdates(es, Entry(u, c), c);
  EntriesOfUpdates(rest, Entry(u, c), c);
}

/** A connection registered once whose credential is accepted is registered once again, under the new user. */
lemma SuccessReregisters(es: seq<Entry>, u: User, c: Consumer, v: User)
  requires Entry(u, c) in es && EntriesOf(es, c) == 1
  ensures EntriesOf(RemoveFirst(es, Entry(u, c)) + [Entry(v, c)], c) == 1
  ensures Entry(v, c) in RemoveFirst(es, Entry(u, c)) + [Entry(v, c)]
{
  var rest := RemoveFirst(es, Entry(u, c));
  EntriesOfUpdates(es, Entry(u, c), c);
  EntriesOfUpdates(rest, Entry(v, c), c);
  assert (rest + [Entry(v, c)])[|rest|] == Entry(v, c);
}

/** A connection whose handlers are bound to it. Fields the source reaches through `scope` are plain fields. */
class Consumer {
  const manager: Manager
  const layer: ChannelLayer
  const channelName: string
  /** The configured authenticator, fixed for the life of the process. */
  const authenticator: Value -> AuthResult
  /** `scope["user"]`. */
  var user: User
  var rooms: seq<string>
  /** The frames and closes sent to the client. */
  var trace: seq<Effect>
  var handlers: seq<Handler>

  ghost predicate Valid()
    reads this
  {
    forall i :: 0 <= i < |handlers| ==> handlers[i].consumer == this
  }

  /** Binds one handler per registered class, in registration order; the connection starts in no room. */
  constructor(manager: Manager, layer: ChannelLayer, registry: Handlers, session: User,
              channelName: string, authenticator: Value -> AuthResult)
    ensures Valid()
    ensures this.manager == manager && this.layer == layer && this.channelName == channelName
    ensures this.authenticator == authenticator
    ensures user == session && rooms == [] && trace == []
    ensures |handlers| == |registry.classes|
    ensures forall i :: 0 <= i < |handlers| ==> handlers[i].cls == registry.classes[i]
    ensures forall i :: 0 <= i < |handlers| ==> fresh(handlers[i])
  {
    this.manager := manager;
    this.layer := layer;
    this.channelName := channelName;
    this.authenticator := authenticator;
    user := session;
    rooms := [];
    trace := [];
    handlers := [];
    new;
    var classes := registry.GetHandlers();
    for i := 0 to |classes|
      invariant |handlers| == i
      invariant forall k :: 0 <= k < i ==> handlers[k].consumer == this && handlers[k].cls == classes[k]
      invariant forall k :: 0 <= k < i ==> fresh(handlers[k])
      invariant user == session && rooms == [] && trace == []
    {
      var h := new Handler(classes[i], this);
      handlers := handlers + [h];
    }
  }

  /** `send_payload`: one `[type, payload]` frame to the client. */
  method SendPayload(payloadType: string, payload: Value)
    modifies this`trace
    ensures trace == old(trace) + [Sent(payloadType, payload)]
  {
    trace := trace + [Sent(payloadType, payload)];
  }

  /** `send_payload_event`: a group message delivered to this connection is forwarded as a frame. */
  method SendPayloadEvent(event: Event)
    requires event.Published?
    modifies this`trace
    ensures trace == old(trace) + [Sent(event.payloadType, event.payload)]
  {
    SendPayload(event.payloadType, event.payload);
  }

  /** `add_room`: subscribe the channel to the group, then record the room (duplicates kept). */
  method AddRoom(room: Value) returns (r: Outcome)
    modifies this`rooms, layer
    ensures old(Valid()) ==> Valid()
    ensures r == if room.Str? then Pass else Raised(TypeError)
    ensures rooms == if room.Str? then old(rooms) + [room.s] else old(rooms)
    ensures layer.events == if room.Str? then old(layer.events) + [Added(room.s, channelName)] else old(layer.events)
  {
    r := layer.GroupAdd(room, channelName);
    if r.Pass? {
      rooms := rooms + [room.s];
    }
  }

  /** `remove_room`: unsubscribe, then forget the first occurrence of the room, if there is one. */
  method RemoveRoom(room: Value) returns (r: Outcome)
    modifies this`rooms, layer
    ensures old(Valid()) ==> Valid()
    ensures r == if room.Str? then Pass else Raised(TypeError)
    ensures rooms == if room.Str? then LeftRooms(old(rooms), room.s) else old(rooms)
    ensures layer.events == if room.Str? then old(layer.events) + [Discarded(room.s, channelName)] else old(layer.events)
  {
    r := layer.GroupDiscard(room, channelName);
    if r.Pass? && room.s in rooms {
      rooms := RemoveFirst(rooms, room.s);
    }
  }

  /** `send_response`: an AUTH frame carrying a status word. */
  method SendResponse(status: string)
    modifies this`trace
    ensures trace == old(trace) + [Sent(AUTH, Str(status))]
  {
    SendPayload(AUTH, Str(status));
  }

  /** `connect`: accept, register under the session user, and tell the client whether it is known. */
  method Connect()
    modifies this`trace, manager
    ensures old(Valid()) ==> Valid()
    ensures manager.consumers == old(manager.consumers) + [Entry(user, this)]
    ensures trace == old(trace) + [Accepted, Sent(AUTH, Str(if IsAuthenticated(user) then "SUCCESS" else "WHOAREYOU"))]
  {
    trace := trace + [Accepted];
    manager.AddConsumer(this);
    if IsAuthenticated(user) {
      SendResponse("SUCCESS");
    } else {
      SendResponse("WHOAREYOU");
    }
  }

  /** The connection's rooms, user, frames, registry and channel-layer log are as before. */
  twostate predicate Quiet()
    reads this, manager, layer
  {
    rooms == old(rooms) && user == old(user) && trace == old(trace) &&
    manager.consumers == old(manager.consumers) && layer.events == old(layer.events)
  }

  /**
   * The state `handle_auth_context(message)` leaves. Without its current record the connection is left
   * as it was. Otherwise the record is removed; a found user becomes the connection's user, is
   * re-registered, told SUCCESS and subscribed to its user group; an authentication error is answered
   * with TOKENEXPIRED and the record stays removed; any other exception leaves the record removed.
   */
  twostate predicate AuthHandled(message: Value)
    reads this, manager, layer
  {
    var e := Entry(old(user), this);
    if e !in old(manager.consumers) then
      user == old(user) && trace == old(trace) &&
      manager.consumers == old(manager.consumers) && layer.events == old(layer.events)
    else
      var rest := RemoveFirst(old(manager.consumers), e);
      match authenticator(message)
      case Found(u) =>
        user == u && manager.consumers == rest + [Entry(u, this)] &&
        trace == old(trace) + [Sent(AUTH, Str("SUCCESS"))] &&
        layer.events == old(layer.events) + [Added(UserGroup(u), channelName)]
      case Refused(error) =>
        user == old(user) && manager.consumers == rest && layer.events == old(layer.events) &&
        trace == old(trace) + (if IsAuthError(error) then [Sent(AUTH, Str("TOKENEXPIRED"))] else [])
  }

  /** `handle_auth_context`. */
  method HandleAuthContext(message: Value) returns (r: Outcome)
    modifies this`user, this`trace, manager, layer
    ensures old(Valid()) ==> Valid()
    ensures r == AuthOutcome(Entry(old(user), this) in old(manager.consumers), authenticator(message))
    ensures AuthHandled(message)
  {
    var removed := manager.RemoveConsumer(this);
    if removed.Raised? {
      r := removed;
      return;
    }
    match authenticator(message)
    case Found(u) =>
      user := u;
      manager.AddConsumer(this);
      SendResponse("SUCCESS");
      var added := layer.GroupAdd(Str(UserGroup(u)), channelName);
      r := Pass;
    case Refused(error) =>
      if IsAuthError(error) {
        SendResponse("TOKENEXPIRED");
        r := Pass;
      } else {
        r := Raised(error);
      }
  }

  /** The part of the connection a handler's action changes. */
  function Snapshot(): View
    reads this, layer
  {
    View(rooms, trace, layer.events)
  }

  /** From `before`, this connection is now where `action` run with `arg` by a `cls` handler takes it. */
  predicate ActionDone(cls: HandlerClass, action: Action, arg: Value, before: View)
    reads this, layer, manager, Consumers(manager.consumers)
  {
    ActionEffect(cls, action, arg, user, channelName, before, Snapshot(), CountPerson(manager.consumers, RoomOf(arg)))
  }

  /**
   * Every handler has seen the message: only the frames and the layer log may have grown; when no
   * handler acts on it nothing changes, and when exactly one does its action took effect, whatever
   * the handlers before and after it raised.
   */
  twostate predicate MessageHandled(message: Value)
    reads this, manager, layer, Consumers(manager.consumers)
  {
    user == old(user) && manager.consumers == old(manager.consumers) &&
    old(trace) <= trace && old(layer.events) <= layer.events &&
    ((forall i :: 0 <= i < |handlers| ==> !Acts(handlers[i].cls, message)) ==>
       Snapshot() == old(Snapshot())) &&
    (forall j :: SoleDispatcher(handlers, message, j) ==>
       var d := Resolve(handlers[j].cls, message);
       ActionDone(handlers[j].cls, d.action, d.arg.value, old(Snapshot())))
  }

  /**
   * `handle_message`: each handler, in order, handles the message; what one raises is swallowed, so a
   * failing handler neither stops the others nor reaches the client.
   */
  method HandleMessage(message: Value) returns (ghost outcomes: seq<Outcome>)
    requires Valid()
    modifies this`rooms, this`trace, layer
    ensures Valid()
    ensures |outcomes| == |handlers|
    ensures forall i :: 0 <= i < |handlers| ==> outcomes[i] == HandlerOutcome(Resolve(handlers[i].cls, message))
    ensures MessageHandled(message)
  {
    outcomes := [];
    var hs := handlers;
    ghost var before := Snapshot();
    ghost var t := Tally(true, true, 0);
    for i := 0 to |hs|
      invariant handlers == hs
      invariant old(trace) <= trace && old(layer.events) <= layer.events
      invariant Counted(hs, message, i, t, outcomes) && Progressed(hs, message, before, t)
    {
      outcomes, t := DispatchNext(hs, i, message, before, t, outcomes);
    }
  }

  /**
   * What the handlers recorded in `t` did to the connection since `before`: nothing while none has
   * dispatched the message, and the first one's action while it is the only one.
   */
  ghost predicate Progressed(hs: seq<Handler>, message: Value, before: View, t: Tally)
    reads this, layer, manager, Consumers(manager.consumers)
  {
    (t.quiet ==> Snapshot() == before) &&
    (!t.quiet && t.sole && t.first < |hs| ==>
       var d := Resolve(hs[t.first].cls, message);
       d.Invoke? && ActionDone(hs[t.first].cls, d.action, d.arg.value, before))
  }

  /** One turn of the `handle_message` loop, with the record of the handlers so far brought up to date. */
  method DispatchNext(hs: seq<Handler>, i: nat, message: Value, ghost before: View, ghost t: Tally,
                      ghost outcomes: seq<Outcome>)
    returns (ghost outcomes': seq<Outcome>, ghost t': Tally)
    requires i < |hs| && hs[i].consumer == this
    requires Counted(hs, message, i, t, outcomes) && Progressed(hs, message, before, t)
    modifies this`rooms, this`trace, layer
    ensures old(trace) <= trace && old(layer.events) <= layer.events
    ensures Counted(hs, message, i + 1, t', outcomes') && Progressed(hs, message, before, t')
  {
    ghost var r := DispatchTo(hs[i], message);
    CountedStep(hs, message, i, t, outcomes, r);
    outcomes' := outcomes + [r];
    t' := NextTally(t, i, Acts(hs[i].cls, message));
  }

  /** One guarded `handler.handle_message(message)` of the loop: what the handler raises is swallowed. */
  method DispatchTo(h: Handler, message: Value) returns (ghost r: Outcome)
    requires h.consumer == this
    modifies this`rooms, this`trace, layer
    ensures r == HandlerOutcome(Resolve(h.cls, message))
    ensures old(trace) <= trace && old(layer.events) <= layer.events
    ensures !Acts(h.cls, message) ==> rooms == old(rooms) && trace == old(trace) && layer.events == old(layer.events)
    ensures Resolve(h.cls, message).Invoke? ==>
              h.Performed(Resolve(h.cls, message).action, Resolve(h.cls, message).arg.value)
    ensures !Acts(h.cls, message) ==>
              forall room :: CountPerson(manager.consumers, room) == old(CountPerson(manager.consumers, room))
  {
    r := h.HandleMessage(message);
    if !Acts(h.cls, message) {
      assert forall o :: o in Consumers(manager.consumers) ==> o.rooms == old(o.rooms);
    }
  }

  /**
   * `receive` for one decoded frame: a frame shorter than two elements closes the connection; a DATA
   * frame goes to the handlers; an AUTH frame to `handle_auth_context`, where an InvalidData raised
   * on the way closes the connection; any other frame is ignored.
   */
  method Receive(frame: seq<Value>) returns (r: Outcome)
    requires Valid()
    modifies this`rooms, this`user, this`trace, manager, layer
    ensures Valid()
    ensures |frame| < 2 ==>
              r == Pass && trace == old(trace) + [Closed] && rooms == old(rooms) && user == old(user) &&
              manager.consumers == old(manager.consumers) && layer.events == old(layer.events)
    ensures |frame| >= 2 && frame[0] == Str(DATA) ==> r == Pass && MessageHandled(frame[1])
    ensures |frame| >= 2 && frame[0] == Str(AUTH) ==>
              var inner := AuthOutcome(Entry(old(user), this) in old(manager.consumers), authenticator(frame[1]));
              rooms == old(rooms) &&
              (inner != Raised(InvalidData) ==> r == inner && AuthHandled(frame[1])) &&
              (inner == Raised(InvalidData) ==>
                 r == Pass && trace == old(trace) + [Closed] && user == old(user) &&
                 manager.consumers == RemoveFirst(old(manager.consumers), Entry(old(user), this)) &&
                 layer.events == old(layer.events))
    ensures |frame| >= 2 && frame[0] != Str(DATA) && frame[0] != Str(AUTH) ==> r == Pass && Quiet()
  {
    if |frame| < 2 {
      trace := trace + [Closed];
      r := Pass;
    } else if frame[0] == Str(DATA) {
      ghost var outcomes := HandleMessage(frame[1]);
      r := Pass;
    } else if frame[0] == Str(AUTH) {
      r := HandleAuthContext(frame[1]);
      if r == Raised(InvalidData) {
        trace := trace + [Closed];
        r := Pass;
      }
    } else {
      r := Pass;
    }
  }

  /**
   * `disconnect`: remove the connection's current record; when that raises ValueError no handler hook
   * runs. Otherwise every handler's hook runs, in order, against the registry without this record.
   */
  method Disconnect() returns (r: Outcome)
    requires Valid()
    modifies manager, layer
    ensures Entry(user, this) !in old(manager.consumers) ==>
              r == Raised(ValueError) && manager.consumers == old(manager.consumers) && layer.events == old(layer.events)
    ensures Entry(user, this) in old(manager.consumers) ==>
              r == Pass && manager.consumers == RemoveFirst(old(manager.consumers), Entry(user, this)) &&
              layer.events == old(layer.events) + HookEvents(handlers, CountPersonEvents(manager.consumers, rooms))
  {
    r := manager.RemoveConsumer(this);
    if r.Raised? {
      return;
    }
    RunDisconnectHooks();
  }

  /** The hook loop of `disconnect`: every handler's hook, in order. */
  method RunDisconnectHooks()
    requires Valid()
    modifies layer
    ensures layer.events == old(layer.events) + HookEvents(handlers, CountPersonEvents(manager.consumers, rooms))
  {
    ghost var block := CountPersonEvents(manager.consumers, rooms);
    for i := 0 to |handlers|
      invariant layer.events == old(layer.events) + HookEvents(handlers[..i], block)
    {
      HookEventsStep(handlers, i, block);
      AppendAssoc(old(layer.events), HookEvents(handlers[..i], block), if handlers[i].cls.BaseHandler? then block else []);
      assert forall o :: o in Consumers(manager.consumers) ==> o.rooms == old(o.rooms);
      DisconnectHandler(handlers[i]);
    }
    assert handlers[..|handlers|] == handlers;
    assert forall o :: o in Consumers(manager.consumers) ==> o.rooms == old(o.rooms);
  }

  /** One `handler.disconnect()` call of the hook loop; only the channel layer's log changes. */
  method DisconnectHandler(h: Handler)
    requires h.consumer == this
    modifies layer
    ensures layer.events == old(layer.events) + (if h.cls.BaseHandler? then old(CountPersonEvents(manager.consumers, rooms)) else [])
  {
    h.Disconnect();
    assert forall o :: o in Consumers(manager.consumers) ==> o.rooms == old(o.rooms);
  }
}

/** What the disconnect hooks of `hs` publish, in order, when each BaseHandler's hook publishes `block`. */
function HookEvents(hs: seq<Handler>, block: seq<Event>): seq<Event>
{
  if hs == [] then []
  else HookEvents(hs[..|hs| - 1], block) + (if hs[|hs| - 1].cls.BaseHandler? then block else [])
}

lemma HookEventsStep(hs: seq<Handler>, i: nat, block: seq<Event>)
  requires i < |hs|
  ensures HookEvents(hs[..i + 1], block) == HookEvents(hs[..i], block) + (if hs[i].cls.BaseHandler? then block else [])
{
  assert hs[..i + 1][..i] == hs[..i];
}

/**
 * The session of the websocket test: an anonymous connection is accepted, registered and told
 * WHOAREYOU; an AUTH frame whose token the authenticator resolves to a stored user is answered
 * SUCCESS, and the connection's only record is now under that user.
 */
method AnonymousThenToken(bob: User, token: Value, authenticator: Value -> AuthResult)
  returns (trace: seq<Effect>, registry: seq<Entry>)
  requires bob.StoredUser? && authenticator(token) == Found(bob)
  ensures trace == [Accepted, Sent(AUTH, Str("WHOAREYOU")), Sent(AUTH, Str("SUCCESS"))]
  ensures |registry| == 1 && registry[0].user == bob
{
  var manager := new Manager();
  var layer := new ChannelLayer();
  var handlers := DefaultHandlers();
  var c := new Consumer(manager, layer, handlers, AnonymousUser, "ws.1", authenticator);
  c.Connect();
  assert manager.consumers == [Entry(AnonymousUser, c)];
  var received := c.Receive([Str(AUTH), token]);
  trace := c.trace;
  registry := manager.consumers;
}

=== FILE: errors.dfy ===
/** The exceptions the core raises or lets escape, as tags (exceptions.py plus the Python built-ins involved). */
module Errors {

  datatype Exception =
    | InvalidData         // a frame with fewer than two elements
    | InvalidCredentials  // raised by an authenticator
    | InvalidToken        // raised by an authenticator
    | ValueError          // list.remove of an absent element
    | ValidationError     // jsonschema.validate on a message that breaks the schema
    | TypeError           // the channel layer refusing a group name that is not a string

  /** How a call ended: normally, or by raising. */
  datatype Outcome = Pass | Raised(exception: Exception)
}

=== FILE: gateway.dfy ===
/**
 * The gateway-info endpoint: the configured site name, with its http(s) scheme rewritten to ws(s).
 * `str.replace` is modelled as Python defines it for a non-empty pattern: split at the
 * non-overlapping occurrences found left to right, then join the pieces with the replacement.
 */
module Gateway {
  import opened Json

  predicate OccursAt(s: string, pat: string, i: nat)
  {
    i + |pat| <= |s| && s[i..i + |pat|] == pat
  }

  predicate Contains(s: string, pat: string)
  {
    exists i: nat | i <= |s| :: OccursAt(s, pat, i)
  }

  /** An occurrence in `s[1..]` is an occurrence in `s`, one place further on. */
  lemma OccursShift(s: string, pat: string, j: nat)
    requires |s| > 0
    ensures OccursAt(s, pat, j + 1) <==> OccursAt(s[1..], pat, j)
  {
    if j + 1 + |pat| <= |s| {
      assert s[j + 1..j + 1 + |pat|] == s[1..][j..j + |pat|];
    }
  }

  /** Leftmost occurrence of `pat` in `s` (`str.find`), or None. */
  function FindFirst(s: string, pat: string): (r: Option<nat>)
    requires |pat| > 0
    ensures r.Some? ==> OccursAt(s, pat, r.value)
    ensures r.Some? ==> forall j: nat :: j < r.value ==> !OccursAt(s, pat, j)
    ensures r.None? <==> !Contains(s, pat)
    decreases |s|
  {
    if |s| < |pat| then None
    else if s[..|pat|] == pat then Some(0)
    else
      var rest := FindFirst(s[1..], pat);
      assert forall j: nat :: OccursAt(s, pat, j + 1) <==> OccursAt(s[1..], pat, j) by {
        forall j: nat { OccursShift(s, pat, j); }
      }
      assert !OccursAt(s, pat, 0);
      if rest.None? then
        assert forall i: nat :: !OccursAt(s, pat, i) by {
          forall i: nat ensures !OccursAt(s, pat, i) {
            if i > 0 { assert !OccursAt(s[1..], pat, i - 1); }
          }
        }
        None
      else
        assert forall j: nat :: j < rest.value + 1 ==> !OccursAt(s, pat, j) by {
          forall j: nat | j < rest.value + 1 ensures !OccursAt(s, pat, j) {
            if j > 0 { assert !OccursAt(s[1..], pat, j - 1); }
          }
        }
        Some(rest.value + 1)
  }

  /** `s.split(pat)`: the pieces between the non-overlapping occurrences of `pat`, left to right. */
  function Split(s: string, pat: string): (parts: seq<string>)
    requires |pat| > 0
    ensures |parts| >= 1
    decreases |s|
  {
    match FindFirst(s, pat)
    case None => [s]
    case Some(i) => [s[..i]] + Split(s[i + |pat|..], pat)
  }

  /** `sep.join(parts)`. */
  function Join(parts: seq<string>, sep: string): string
    requires |parts| >= 1
  {
    if |parts| == 1 then parts[0] else parts[0] + sep + Join(parts[1..], sep)
  }

  /** `s.replace(pat, repl)`. */
  function Replace(s: string, pat: string, repl: string): (r: string)
    requires |pat| > 0
    ensures !Contains(s, pat) ==> r == s
  {
    Join(Split(s, pat), repl)
  }

  /** The text before the leftmost occurrence holds no occurrence. */
  lemma PrefixBeforeFirst(s: string, pat: string, i: nat)
    requires |pat| > 0 && i <= |s|
    requires forall j: nat :: j < i ==> !OccursAt(s, pat, j)
    ensures !Contains(s[..i], pat)
  {
    forall j: nat | j <= i ensures !OccursAt(s[..i], pat, j) {
      if j + |pat| <= i {
        assert s[..i][j..j + |pat|] == s[j..j + |pat|];
        assert !OccursAt(s, pat, j);
      }
    }
  }

  /** Splitting cuts at every occurrence: no piece holds the pattern, and joining with the pattern gives `s` back. */
  lemma {:induction false} SplitJoin(s: string, pat: string)
    requires |pat| > 0
    ensures Join(Split(s, pat), pat) == s
    ensures forall k :: 0 <= k < |Split(s, pat)| ==> !Contains(Split(s, pat)[k], pat)
    decreases |s|
  {
    match FindFirst(s, pat)
    case None =>
    case Some(i) =>
      var rest := s[i + |pat|..];
      var tail := Split(rest, pat);
      SplitJoin(rest, pat);
      PrefixBeforeFirst(s, pat, i);
      assert Split(s, pat) == [s[..i]] + tail;
      assert ([s[..i]] + tail)[1..] == tail;
      assert Join(Split(s, pat), pat) == s[..i] + pat + rest;
      assert s == s[..i] + s[i..i + |pat|] + rest;
  }

  /** A piece of a joined string is a substring of it, so it avoids whatever the joined string avoids. */
  lemma {:induction false} PiecesAvoid(parts: seq<string>, sep: string, q: string, k: nat)
    requires |parts| >= 1 && k < |parts|
    requires !Contains(Join(parts, sep), q)
    ensures !Contains(parts[k], q)
  {
    if |parts| > 1 {
      var p0, rest := parts[0], Join(parts[1..], sep);
      var J := Join(parts, sep);
      assert J == p0 + sep + rest;
      if k == 0 {
        forall j: nat | j <= |p0| ensures !OccursAt(p0, q, j) {
          if j + |q| <= |p0| {
            assert J[j..j + |q|] == p0[j..j + |q|];
            assert !OccursAt(J, q, j);
          }
        }
      } else {
        var b := |p0| + |sep|;
        forall j: nat | j <= |rest| ensures !OccursAt(rest, q, j) {
          if j + |q| <= |rest| {
            assert J[b + j..b + j + |q|] == rest[j..j + |q|];
            assert !OccursAt(J, q, b + j);
          }
        }
        PiecesAvoid(parts[1..], sep, q, k - 1);
      }
    }
  }

  /**
   * Joining pieces that avoid `pat` with a separator that can neither start inside `pat`
   * nor have `pat` start inside it creates no new occurrence of `pat`.
   */
  lemma {:induction false} JoinAvoids(parts: seq<string>, sep: string, pat: string)
    requires |parts| >= 1 && |pat| > 0 && |sep| > 0
    requires pat[0] !in sep && sep[0] !in pat
    requires forall k :: 0 <= k < |parts| ==> !Contains(parts[k], pat)
    ensures !Contains(Join(parts, sep), pat)
  {
    if |parts| > 1 {
      var p0, rest := parts[0], Join(parts[1..], sep);
      JoinAvoids(parts[1..], sep, pat);
      var J := Join(parts, sep);
      assert J == p0 + sep + rest;
      var a, b := |p0|, |p0| + |sep|;
      forall j: nat | j <= |J| ensures !OccursAt(J, pat, j) {
        if j + |pat| <= |J| {
          var w := J[j..j + |pat|];
          if j + |pat| <= a {
            assert w == p0[j..j + |pat|];
            assert !OccursAt(p0, pat, j);
          } else if j < a {
            assert w[a - j] == sep[0];
          } else if j < b {
            assert w[0] == sep[j - a];
          } else {
            assert w == rest[j - b..j - b + |pat|];
            assert !OccursAt(rest, pat, j - b);
          }
        }
      }
    }
  }

  /** Replacing `pat` by a separator as in `JoinAvoids` leaves no occurrence of `pat`, nor of any `q` that
      `s` avoided and that the separator cannot help form. */
  lemma ReplaceAvoids(s: string, pat: string, repl: string, q: string)
    requires |pat| > 0 && |q| > 0 && |repl| > 0
    requires q[0] !in repl && repl[0] !in q
    requires q == pat || !Contains(s, q)
    ensures !Contains(Replace(s, pat, repl), q)
  {
    var parts := Split(s, pat);
    SplitJoin(s, pat);
    forall k | 0 <= k < |parts| ensures !Contains(parts[k], q) {
      if q != pat { PiecesAvoid(parts, pat, q, k); }
    }
    JoinAvoids(parts, repl, q);
  }

  const HTTP: string := "http://"
  const HTTPS: string := "https://"
  const WS: string := "ws://"
  const WSS: string := "wss://"

  /**
   * `WebsocketGateway.get`: not found (None) when SITE_NAME is unset or empty; otherwise every
   * "http://" becomes "ws://", and then every "https://" becomes "wss://".
   */
  function WebsocketUrl(siteName: Option<string>): (r: Option<string>)
    ensures r.None? <==> siteName.None? || siteName.value == ""
    ensures r.Some? && !Contains(siteName.value, HTTP) && !Contains(siteName.value, HTTPS) ==> r.value == siteName.value
  {
    if siteName.None? || siteName.value == "" then None
    else Some(Replace(Replace(siteName.value, HTTP, WS), HTTPS, WSS))
  }

  /** After the rewrite no http:// or https:// scheme is left anywhere in the address. */
  lemma WebsocketUrlHasNoHttpScheme(siteName: Option<string>)
    requires WebsocketUrl(siteName).Some?
    ensures !Contains(WebsocketUrl(siteName).value, HTTP)
    ensures !Contains(WebsocketUrl(siteName).value, HTTPS)
  {
    var once := Replace(siteName.value, HTTP, WS);
    ReplaceAvoids(siteName.value, HTTP, WS, HTTP);
    ReplaceAvoids(once, HTTPS, WSS, HTTP);
    ReplaceAvoids(once, HTTPS, WSS, HTTPS);
  }
}

=== FILE: handlers.dfy ===
// The action dispatcher (handlers.py): request-name normalisation, the handler-class registry, the
// per-connection handler objects and the default handler's room actions.

/**
 * A registered handler class: the default `BaseHandler`, or another class known only by its attribute
 * table (attribute name -> whether the attribute carries the `action` marker).
 */
datatype HandlerClass = BaseHandler | OtherHandler(name: string, attributes: map<string, bool>)

/** The client-invokable actions: BaseHandler's three, or a marked method of another class. */
datatype Action = WhoIAm | JoinRoom | LeaveRoom | Custom(name: string)

/** What `getattr(handler, name)` finds, when it finds something: a plain attribute, or one marked by `@action`. */
datatype Attribute = Plain | Marked(action: Action)

/** How one handler treats one message. */
datatype Dispatch = Rejected | Ignored | Invoke(action: Action, arg: Option<Value>)

/** ASCII `str.lower` on one character. */
function Lower(c: char): char
{
  if 'A' <= c <= 'Z' then (c as int + 32) as char else c
}

/** What `get_handler_name` makes of one character: a space becomes `_`, then it is lower-cased. */
function NameChar(c: char): char
{
  Lower(if c == ' ' then '_' else c)
}

/**
 * `get_handler_name`: the request name with every space replaced by `_`, lower-cased, character by
 * character; so no space and no capital letter is left.
 */
function GetHandlerName(request: string): (name: string)
  ensures |name| == |request|
  ensures forall i :: 0 <= i < |request| ==> name[i] == NameChar(request[i])
  ensures forall i :: 0 <= i < |name| ==> name[i] != ' ' && !('A' <= name[i] <= 'Z')
{
  if request == [] then []
  else [NameChar(request[0])] + GetHandlerName(request[1..])
}

/**
 * Normalising a request name twice is the same as normalising it once: it follows character by
 * character, since a normalised character is neither a space nor a capital letter.
 */
lemma GetHandlerNameIdempotent(request: string)
  ensures GetHandlerName(GetHandlerName(request)) == GetHandlerName(request)
{
}

/**
 * The attribute of a `BaseHandler` instance that a request name reaches: the three `@action` methods
 * are marked, the other methods and the `consumer` field are plain. Any other name, dunder names
 * included, is absent here; a dunder method carries no `action` marker, so dispatch treats it exactly
 * as it treats a plain attribute or a missing one.
 */
function BaseAttribute(name: string): (a: Option<Attribute>)
  ensures a.Some? && a.value.Marked? <==> name == "whoiam" || name == "join_room" || name == "leave_room"
  ensures a == Some(Marked(WhoIAm)) <==> name == "whoiam"
  ensures a == Some(Marked(JoinRoom)) <==> name == "join_room"
  ensures a == Some(Marked(LeaveRoom)) <==> name == "leave_room"
{
  if name == "whoiam" then Some(Marked(WhoIAm))
  else if name == "join_room" then Some(Marked(JoinRoom))
  else if name == "leave_room" then Some(Marked(LeaveRoom))
  else if name in {"consumer", "connect", "disconnect", "get_user", "handle_message", "send", "send_group",
                   "get_count_clients", "send_event_count_person"} then Some(Plain)
  else None
}

/** `getattr(handler, name, None)`, with the `action` marker read off the attribute. */
function Lookup(cls: HandlerClass, name: string): (a: Option<Attribute>)
  ensures cls.BaseHandler? ==> a == BaseAttribute(name)
  ensures cls.OtherHandler? ==> (a.Some? <==> name in cls.attributes)
  ensures cls.OtherHandler? ==>
            (a.Some? && a.value.Marked? <==> name in cls.attributes && cls.attributes[name])
  ensures cls.OtherHandler? && a.Some? && a.value.Marked? ==> a.value.action == Custom(name)
{
  match cls
  case BaseHandler => BaseAttribute(name)
  case OtherHandler(_, attributes) =>
    if name in attributes then Some(if attributes[name] then Marked(Custom(name)) else Plain) else None
}

/** The message schema: an object with a string `request` and some `data`, both required. */
predicate MatchesSchema(message: Value)
{
  message.Obj? && "request" in message.fields && "data" in message.fields && message.fields["request"].Str?
}

/**
 * The schema constrains only `request` and the presence of `data`: any value may be put under `data`,
 * and any other key added or changed, without a valid message becoming invalid.
 */
lemma SchemaOpen(message: Value, key: string, v: Value)
  requires MatchesSchema(message)
  ensures key != "request" ==> MatchesSchema(Obj(message.fields[key := v]))
  ensures MatchesSchema(Obj(message.fields["request" := v])) <==> v.Str?
{
}

/** The handler method name a well-formed message asks for. */
function RequestName(message: Value): string
  requires MatchesSchema(message)
{
  GetHandlerName(message.fields["request"].s)
}

/**
 * `AbstractHandler.handle_message` before the call: validate, derive the name, and call the attribute
 * only when it exists and carries the `action` marker, with `data` as its argument.
 */
function Resolve(cls: HandlerClass, message: Value): (d: Dispatch)
  ensures d.Rejected? <==> !MatchesSchema(message)
  ensures d.Invoke? <==> MatchesSchema(message) && Lookup(cls, RequestName(message)).Some? &&
                         Lookup(cls, RequestName(message)).value.Marked?
  ensures d.Invoke? ==> Lookup(cls, RequestName(message)) == Some(Marked(d.action))
  ensures d.Invoke? ==> d.arg == Some(message.fields["data"])
{
  if !MatchesSchema(message) then Rejected
  else
    match Lookup(cls, RequestName(message))
    case Some(Marked(action)) =>
      if "data" in message.fields then Invoke(action, Some(message.fields["data"])) else Invoke(action, None)
    case _ => Ignored
}

/** The request "Join Room" names BaseHandler's `join_room`. */
lemma JoinRoomRequestName()
  ensures GetHandlerName("Join Room") == "join_room"
{
  GetHandlerNameUnique("Join Room", "join_room");
}

/** A name that normalises `request` character by character is its handler name. */
lemma GetHandlerNameUnique(request: string, name: string)
  requires |name| == |request|
  requires forall i :: 0 <= i < |request| ==> name[i] == NameChar(request[i])
  ensures GetHandlerName(request) == name
{
}

/** Every request naming `join_room` reaches BaseHandler's `join_room`, with the message's data as the room. */
lemma JoinRoomDispatch(message: Value)
  requires MatchesSchema(message) && RequestName(message) == "join_room"
  ensures Resolve(BaseHandler, message) == Invoke(JoinRoom, Some(message.fields["data"]))
{
}

/** A request name that no class has as a marked attribute is dispatched nowhere. */
lemma UnknownRequestIsIgnored(classes: seq<HandlerClass>, message: Value)
  requires MatchesSchema(message)
  requires forall i :: 0 <= i < |classes| ==>
             Lookup(classes[i], RequestName(message)).None? || Lookup(classes[i], RequestName(message)) == Some(Plain)
  ensures forall i :: 0 <= i < |classes| ==> Resolve(classes[i], message) == Ignored
{
}

/** How a handler's `handle_message` ends for a dispatch decision. */
function HandlerOutcome(d: Dispatch): Outcome
{
  match d
  case Rejected => Raised(ValidationError)
  case Invoke(JoinRoom, Some(room)) => if room.Str? then Pass else Raised(TypeError)
  case Invoke(LeaveRoom, Some(room)) => if room.Str? then Pass else Raised(TypeError)
  case _ => Pass
}

/** The frame `send(response)` puts on the handler's own connection. */
function Reply(response: Response): Effect
{
  Sent(DATA, Obj(GetObj(response)))
}

/** The COUNT PERSON message published to `room` when `count` people are in it. */
function CountMessage(room: string, count: nat): Event
{
  Published(room, DATA, Obj(GetObj(SuccessResponse("COUNT PERSON", Obj(map["count" := Int(count)])))))
}

/** The group message `send_event_count_person(room)` publishes for the registry `es`. */
function CountPersonEvent(es: seq<Entry>, room: string): Event
  reads Consumers(es)
{
  CountMessage(room, CountPerson(es, room))
}

/** The COUNT PERSON messages for each of `rooms`, in order. */
function CountPersonEvents(es: seq<Entry>, rooms: seq<string>): (r: seq<Event>)
  reads Consumers(es)
  ensures |r| == |rooms|
{
  if rooms == [] then []
  else CountPersonEvents(es, rooms[..|rooms| - 1]) + [CountPersonEvent(es, rooms[|rooms| - 1])]
}

/** One COUNT PERSON message per element of `rooms`, in order, duplicates included. */
lemma {:induction false} CountPersonEventsAt(es: seq<Entry>, rooms: seq<string>)
  ensures forall i :: 0 <= i < |rooms| ==> CountPersonEvents(es, rooms)[i] == CountPersonEvent(es, rooms[i])
{
  if rooms != [] {
    var init := rooms[..|rooms| - 1];
    CountPersonEventsAt(es, init);
    assert forall i :: 0 <= i < |init| ==> init[i] == rooms[i];
  }
}

/** `Handlers`: the process-wide handler-class registry. Classes are only ever appended. */
class Handlers {
  var classes: seq<HandlerClass>

  constructor()
    ensures classes == []
  {
    classes := [];
  }

  /** `register`: appends a class; nothing registered before moves or disappears. */
  method Register(cls: HandlerClass)
    modifies this
    ensures classes == old(classes) + [cls]
  {
    classes := classes + [cls];
  }

  /** `get_handlers`: the registered classes, in registration order. */
  method GetHandlers() returns (r: seq<HandlerClass>)
    ensures r == classes
  {
    r := classes;
  }
}

/** The registry as the application sets it up at import time: BaseHandler registered once. */
method DefaultHandlers() returns (registry: Handlers)
  ensures fresh(registry) && registry.classes == [BaseHandler]
{
  registry := new Handlers();
  registry.Register(BaseHandler);
}

/** A handler object: an instance of `cls` bound to one consumer. */
class Handler {
  const cls: HandlerClass
  const consumer: Consumer

  constructor(cls: HandlerClass, consumer: Consumer)
    ensures this.cls == cls && this.consumer == consumer
  {
    this.cls := cls;
    this.consumer := consumer;
  }

  /** The consumer's rooms, frames and the channel layer's log are as before. */
  twostate predicate Untouched()
    reads consumer, consumer.layer
  {
    consumer.rooms == old(consumer.rooms) && consumer.trace == old(consumer.trace) &&
    consumer.layer.events == old(consumer.layer.events)
  }

  /** Running `action` with `arg` had the effect `ActionDone` describes, from the state before. */
  twostate predicate Performed(action: Action, arg: Value)
    reads consumer, consumer.layer, consumer.manager, Consumers(consumer.manager.consumers)
  {
    consumer.ActionDone(cls, action, arg, old(consumer.Snapshot()))
  }

  /** `send`: a DATA frame whose payload is the response's mapping, to this handler's own client. */
  method Send(response: Response)
    modifies consumer`trace
    ensures consumer.trace == old(consumer.trace) + [Sent(DATA, Obj(GetObj(response)))]
  {
    consumer.SendPayload(DATA, Obj(GetObj(response)));
  }

  /** `send_group`: publishes the response's mapping to every connection in `room`. */
  method SendGroup(room: string, response: Response)
    modifies consumer.layer
    ensures consumer.layer.events == old(consumer.layer.events) + [Published(room, DATA, Obj(GetObj(response)))]
  {
    consumer.layer.GroupSend(room, DATA, Obj(GetObj(response)));
  }

  /** `send_event_count_person`: publishes the room's current count of authenticated users to the room. */
  method SendEventCountPerson(room: string)
    modifies consumer.layer
    ensures consumer.layer.events == old(consumer.layer.events) + [CountPersonEvent(consumer.manager.consumers, room)]
    ensures forall o :: o in Consumers(consumer.manager.consumers) ==> o.rooms == old(o.rooms)
  {
    var n := consumer.manager.GetCountAuthClients(room);
    SendGroup(room, SuccessResponse("COUNT PERSON", Obj(map["count" := Int(n)])));
    assert forall o :: o in Consumers(consumer.manager.consumers) ==> o.rooms == old(o.rooms);
  }

  /** `whoiam`: answers with the connection's current user. */
  method WhoIAm(arg: Value)
    modifies consumer`trace
    ensures Performed(Action.WhoIAm, arg)
  {
    Send(SuccessResponse("WHOIAM", Obj(map["user" := UserValue(consumer.user)])));
  }

  /** `join_room`: join, answer JOIN ROOM, then publish the count computed after joining. */
  method JoinRoom(room: Value) returns (r: Outcome)
    modifies consumer`rooms, consumer`trace, consumer.layer
    ensures r == if room.Str? then Pass else Raised(TypeError)
    ensures Performed(Action.JoinRoom, room)
  {
    r := consumer.AddRoom(room);
    if r.Raised? {
      return;
    }
    Announce("JOIN ROOM", room);
  }

  /** `leave_room`: leave, answer LEAVE ROOM, then publish the count computed after leaving. */
  method LeaveRoom(room: Value) returns (r: Outcome)
    modifies consumer`rooms, consumer`trace, consumer.layer
    ensures r == if room.Str? then Pass else Raised(TypeError)
    ensures Performed(Action.LeaveRoom, room)
  {
    r := consumer.RemoveRoom(room);
    if r.Raised? {
      return;
    }
    Announce("LEAVE ROOM", room);
  }

  /**
   * The tail of `join_room` and `leave_room`: answer `name` with the room, then publish the room's
   * count taken from the registry as it is now; the rooms are left as they are.
   */
  method Announce(name: string, room: Value)
    requires room.Str?
    modifies consumer`trace, consumer.layer
    ensures consumer.rooms == old(consumer.rooms)
    ensures consumer.trace == old(consumer.trace) + [Reply(SuccessResponse(name, Obj(map["room" := room])))]
    ensures consumer.layer.events ==
              old(consumer.layer.events) + [CountMessage(room.s, CountPerson(consumer.manager.consumers, room.s))]
  {
    Send(SuccessResponse(name, Obj(map["room" := room])));
    SendEventCountPerson(room.s);
  }

  /** Calls the marked method for `action` with `arg`. */
  method Run(action: Action, arg: Value) returns (r: Outcome)
    modifies consumer`rooms, consumer`trace, consumer.layer
    ensures r == HandlerOutcome(Invoke(action, Some(arg)))
    ensures Performed(action, arg)
  {
    match action
    case WhoIAm =>
      WhoIAm(arg);
      r := Pass;
    case JoinRoom =>
      r := JoinRoom(arg);
    case LeaveRoom =>
      r := LeaveRoom(arg);
    case Custom(name) =>
      consumer.trace := consumer.trace + [Invoked(cls, name, arg)];
      r := Pass;
  }

  /**
   * `handle_message`: a message breaking the schema raises before anything runs; a name that is not a
   * marked attribute does nothing; otherwise the marked method runs once, with the message's data.
   */
  method HandleMessage(message: Value) returns (r: Outcome)
    modifies consumer`rooms, consumer`trace, consumer.layer
    ensures r == HandlerOutcome(Resolve(cls, message))
    ensures !Resolve(cls, message).Invoke? ==> Untouched()
    ensures Resolve(cls, message).Invoke? ==>
              Performed(Resolve(cls, message).action, Resolve(cls, message).arg.value)
    ensures old(consumer.trace) <= consumer.trace && old(consumer.layer.events) <= consumer.layer.events
  {
    match Resolve(cls, message)
    case Rejected =>
      r := Raised(ValidationError);
    case Ignored =>
      r := Pass;
    case Invoke(action, Some(data)) =>
      r := Run(action, data);
  }

  /** `disconnect` hook: BaseHandler publishes one COUNT PERSON per room the connection is in; others do nothing. */
  method Disconnect()
    modifies consumer.layer
    ensures consumer.layer.events == old(consumer.layer.events) +
              (if cls.BaseHandler? then CountPersonEvents(consumer.manager.consumers, consumer.rooms) else [])
  {
    if cls.BaseHandler? {
      var rooms := consumer.rooms;
      ghost var events := CountPersonEvents(consumer.manager.consumers, rooms);
      CountPersonEventsAt(consumer.manager.consumers, rooms);
      for i := 0 to |rooms|
        invariant consumer.layer.events == old(consumer.layer.events) + events[..i]
      {
        AppendAssoc(old(consumer.layer.events), events[..i], [events[i]]);
        PrefixStep(events, i);
        SendEventCountPerson(rooms[i]);
      }
      assert events[..|rooms|] == events;
      assert forall o :: o in Consumers(consumer.manager.consumers) ==> o.rooms == old(o.rooms);
    }
  }
}

=== FILE: json.dfy ===
/** Decoded JSON values, as the gateway's frames and payloads carry them. */
module Json {

  datatype Option<+T> = None | Some(value: T)

  /**
   * A decoded JSON value. Numbers are integers here: floats are left out, and the modelled actions
   * treat every non-string value alike.
   */
  datatype Value =
    | Null
    | Bool(b: bool)
    | Int(i: int)
    | Str(s: string)
    | Arr(items: seq<Value>)
    | Obj(fields: map<string, Value>)
}

=== FILE: lists.dfy ===
/** Python's `list.index` and `list.remove`, which the registry and the room list rely on. */
module Lists {

  /** The position of the first element equal to `x` (Python's `list.index`). */
  function IndexOf<T(==)>(s: seq<T>, x: T): (i: nat)
    requires x in s
    ensures i < |s| && s[i] == x
    ensures forall k :: 0 <= k < i ==> s[k] != x
  {
    if s[0] == x then 0 else 1 + IndexOf(s[1..], x)
  }

  /** Python's `list.remove`: deletes the first element equal to `x`, scanning from the front. */
  function RemoveFirst<T(==)>(s: seq<T>, x: T): (r: seq<T>)
    requires x in s
    ensures r == s[..IndexOf(s, x)] + s[IndexOf(s, x) + 1..]
  {
    if s[0] == x then s[1..]
    else
      var i := IndexOf(s[1..], x);
      assert s[..i + 1] == [s[0]] + s[1..][..i];
      [s[0]] + RemoveFirst(s[1..], x)
  }

  /** Removal takes out exactly one copy of `x` and keeps the rest. */
  lemma RemoveFirstCount<T>(s: seq<T>, x: T)
    requires x in s
    ensures |RemoveFirst(s, x)| == |s| - 1
    ensures multiset(RemoveFirst(s, x)) == multiset(s) - multiset{x}
  {
    var i := IndexOf(s, x);
    var before, after := s[..i], s[i + 1..];
    assert s == before + ([x] + after);
    assert multiset(s) == multiset(before) + multiset{x} + multiset(after);
    assert multiset(RemoveFirst(s, x)) == multiset(before) + multiset(after);
  }

  /**
   * Appending `x` and then removing `x` gives back `s` when `x` was not already in `s`; otherwise the
   * older copy is removed and the new one stays at the end.
   */
  lemma AppendThenRemove<T>(s: seq<T>, x: T)
    ensures x !in s ==> RemoveFirst(s + [x], x) == s
    ensures x in s ==> RemoveFirst(s + [x], x) == RemoveFirst(s, x) + [x]
  {
    if x !in s {
      AppendNewThenRemove(s, x);
    } else {
      AppendOldThenRemove(s, x);
    }
  }

  lemma AppendNewThenRemove<T>(s: seq<T>, x: T)
    requires x !in s
    ensures RemoveFirst(s + [x], x) == s
  {
    var t := s + [x];
    assert forall k :: 0 <= k < |s| ==> t[k] == s[k] && s[k] != x;
    assert IndexOf(t, x) == |s|;
    assert t[..|s|] == s;
  }

  lemma AppendOldThenRemove<T>(s: seq<T>, x: T)
    requires x in s
    ensures RemoveFirst(s + [x], x) == RemoveFirst(s, x) + [x]
  {
    var t := s + [x];
    var i := IndexOf(s, x);
    assert forall k :: 0 <= k < |s| ==> t[k] == s[k];
    assert IndexOf(t, x) == i;
    assert t[..i] == s[..i];
    assert t[i + 1..] == s[i + 1..] + [x];
  }

  /** When `x` already occurs, the removal takes the older copy, so the list does not come back. */
  lemma AppendThenRemoveReorders()
    ensures RemoveFirst([1, 2] + [1], 1) == [2, 1] != [1, 2]
  {
    assert [1, 2] + [1] == [1, 2, 1];
    assert [1, 2, 1][1..] == [2, 1];
  }
}

=== FILE: manager.dfy ===
// The connection registry (`Manager`): an ordered list of (user, consumer) records shared by all
// connections, and the queries that count authenticated users per room.

/** One registry record: the consumer's user at the time it registered, and the consumer. */
datatype Entry = Entry(user: User, consumer: Consumer)

/** The consumers a list of records refers to; the room queries read their room lists. */
function Consumers(es: seq<Entry>): set<Consumer>
{
  set e | e in es :: e.consumer
}

/** The truthy user ids present in `es`. */
function TruthyIds(es: seq<Entry>): set<int>
{
  set e | e in es && Uid(e.user) != 0 :: Uid(e.user)
}

/** The ids of the records in `es`. */
function IdsOf(es: seq<Entry>): set<int>
{
  set e | e in es :: Uid(e.user)
}

/** The number of records in `es` that belong to consumer `c`. */
function EntriesOf(es: seq<Entry>, c: Consumer): nat
{
  if es == [] then 0 else (if es[0].consumer == c then 1 else 0) + EntriesOf(es[1..], c)
}

/**
 * The scan of `get_auth_clients`, started with the ids in `seen` already seen: keep a record when its
 * user id is truthy and not yet seen, and then count its id as seen.
 */
function Dedup(es: seq<Entry>, seen: set<int>): (r: seq<Entry>)
  ensures |r| <= |es|
  ensures forall k :: 0 <= k < |r| ==> r[k] in es
{
  if es == [] then []
  else if Uid(es[0].user) != 0 && Uid(es[0].user) !in seen then
    [es[0]] + Dedup(es[1..], seen + {Uid(es[0].user)})
  else Dedup(es[1..], seen)
}

/** What `get_auth_clients` returns for the registry `es`. */
function AuthClients(es: seq<Entry>): seq<Entry>
{
  Dedup(es, {})
}

/** The position of the first record in `es` whose user id is `x`. */
function FirstWithId(es: seq<Entry>, x: int): (i: nat)
  requires x in TruthyIds(es)
  ensures i < |es| && Uid(es[i].user) == x
  ensures forall j :: 0 <= j < i ==> Uid(es[j].user) != x
{
  if Uid(es[0].user) == x then 0
  else
    assert x in TruthyIds(es[1..]) by {
      var e :| e in es && Uid(e.user) != 0 && Uid(e.user) == x;
      assert e != es[0];
      assert e in es[1..];
    }
    1 + FirstWithId(es[1..], x)
}

/** The order-preserving filter `[c for c in cs if room in c["consumer"].rooms]`. */
function InRoom(cs: seq<Entry>, room: string): (r: seq<Entry>)
  reads Consumers(cs)
  ensures |r| <= |cs|
{
  if cs == [] then []
  else
    (if room in cs[0].consumer.rooms then [cs[0]] else []) + InRoom(cs[1..], room)
}

lemma InRoomStep(cs: seq<Entry>, i: nat, room: string)
  requires i < |cs|
  ensures InRoom(cs[i..], room) == (if room in cs[i].consumer.rooms then [cs[i]] else []) + InRoom(cs[i + 1..], room)
{
  assert cs[i..][0] == cs[i] && cs[i..][1..] == cs[i + 1..];
}

lemma AppendAssoc<T>(a: seq<T>, b: seq<T>, c: seq<T>)
  ensures (a + b) + c == a + (b + c)
{
}

lemma PrefixStep<T>(s: seq<T>, i: nat)
  requires i < |s|
  ensures s[..i + 1] == s[..i] + [s[i]]
{
}

/** The filter keeps exactly the records whose consumer has joined `room`. */
lemma {:induction false} InRoomMembers(cs: seq<Entry>, room: string)
  ensures forall k :: 0 <= k < |InRoom(cs, room)| ==>
            InRoom(cs, room)[k] in cs && room in InRoom(cs, room)[k].consumer.rooms
  ensures forall k :: 0 <= k < |cs| && room in cs[k].consumer.rooms ==> cs[k] in InRoom(cs, room)
{
  if cs != [] {
    InRoomMembers(cs[1..], room);
    var t := InRoom(cs[1..], room);
    assert forall k :: 0 <= k < |t| ==> t[k] in cs by {
      forall k | 0 <= k < |t| ensures t[k] in cs {
        var l :| 0 <= l < |cs[1..]| && cs[1..][l] == t[k];
        assert cs[l + 1] == t[k];
      }
    }
    forall k | 0 < k < |cs| && room in cs[k].consumer.rooms ensures cs[k] in InRoom(cs, room) {
      assert cs[1..][k - 1] == cs[k];
    }
  }
}

/** What `get_count_auth_clients(room)` returns for the registry `es`. */
function CountPerson(es: seq<Entry>, room: string): nat
  reads Consumers(es)
{
  assert Consumers(AuthClients(es)) <= Consumers(es);
  |InRoom(AuthClients(es), room)|
}

/**
 * The scan keeps only records with truthy ids that were not seen before, never two with the same id,
 * and exactly one per truthy id of `es` that was not seen before.
 */
lemma {:induction false} DedupIds(es: seq<Entry>, seen: set<int>)
  ensures forall k :: 0 <= k < |Dedup(es, seen)| ==>
            Uid(Dedup(es, seen)[k].user) != 0 && Uid(Dedup(es, seen)[k].user) !in seen
  ensures forall k, l :: 0 <= k < l < |Dedup(es, seen)| ==>
            Uid(Dedup(es, seen)[k].user) != Uid(Dedup(es, seen)[l].user)
  ensures IdsOf(Dedup(es, seen)) == TruthyIds(es) - seen
{
  if es != [] {
    var x := Uid(es[0].user);
    assert forall e :: e in es <==> e == es[0] || e in es[1..];
    if x != 0 && x !in seen {
      DedupIds(es[1..], seen + {x});
      var r' := Dedup(es[1..], seen + {x});
      assert Dedup(es, seen) == [es[0]] + r';
      assert IdsOf([es[0]] + r') == {x} + IdsOf(r');
    } else {
      DedupIds(es[1..], seen);
    }
  }
}

/** Each kept record is the first record of its id in `es`. */
lemma {:induction false} DedupFirst(es: seq<Entry>, seen: set<int>)
  ensures forall k :: 0 <= k < |Dedup(es, seen)| ==> Uid(Dedup(es, seen)[k].user) in TruthyIds(es)
  ensures forall k :: 0 <= k < |Dedup(es, seen)| ==>
            Dedup(es, seen)[k] == es[FirstWithId(es, Uid(Dedup(es, seen)[k].user))]
{
  if es != [] {
    var x := Uid(es[0].user);
    var seen' := if x != 0 && x !in seen then seen + {x} else seen;
    DedupFirst(es[1..], seen');
    DedupIds(es[1..], seen');
    var r' := Dedup(es[1..], seen');
    forall k | 0 <= k < |r'|
      ensures Uid(r'[k].user) in TruthyIds(es)
      ensures FirstWithId(es, Uid(r'[k].user)) == 1 + FirstWithId(es[1..], Uid(r'[k].user))
    {
      FirstWithIdTail(es, Uid(r'[k].user));
    }
  }
}

/** The kept records keep their order in `es`: their first positions increase. */
lemma {:induction false} DedupOrdered(es: seq<Entry>, seen: set<int>)
  ensures forall k :: 0 <= k < |Dedup(es, seen)| ==> Uid(Dedup(es, seen)[k].user) in TruthyIds(es)
  ensures forall k, l :: 0 <= k < l < |Dedup(es, seen)| ==>
            FirstWithId(es, Uid(Dedup(es, seen)[k].user)) < FirstWithId(es, Uid(Dedup(es, seen)[l].user))
{
  DedupFirst(es, seen);
  if es != [] {
    var x := Uid(es[0].user);
    var seen' := if x != 0 && x !in seen then seen + {x} else seen;
    DedupOrdered(es[1..], seen');
    DedupIds(es[1..], seen');
    var r' := Dedup(es[1..], seen');
    forall k | 0 <= k < |r'|
      ensures Uid(r'[k].user) in TruthyIds(es)
      ensures FirstWithId(es, Uid(r'[k].user)) == 1 + FirstWithId(es[1..], Uid(r'[k].user))
    {
      FirstWithIdTail(es, Uid(r'[k].user));
    }
  }
}

/** An id of the tail other than the head's id is first found one place further on in `es`. */
lemma FirstWithIdTail(es: seq<Entry>, y: int)
  requires es != [] && y in TruthyIds(es[1..]) && y != Uid(es[0].user)
  ensures y in TruthyIds(es) && FirstWithId(es, y) == 1 + FirstWithId(es[1..], y)
{
  var i := FirstWithId(es[1..], y);
  assert es[1..][i] in es;
}

/**
 * `get_auth_clients` keeps one record per truthy user id of the registry and no other: the first
 * record with that id, in registry order.
 */
lemma AuthClientsSpec(es: seq<Entry>)
  ensures forall k :: 0 <= k < |AuthClients(es)| ==> Uid(AuthClients(es)[k].user) != 0
  ensures forall k, l :: 0 <= k < l < |AuthClients(es)| ==>
            Uid(AuthClients(es)[k].user) != Uid(AuthClients(es)[l].user)
  ensures IdsOf(AuthClients(es)) == TruthyIds(es)
  ensures forall k :: 0 <= k < |AuthClients(es)| ==>
            Uid(AuthClients(es)[k].user) in TruthyIds(es) &&
            AuthClients(es)[k] == es[FirstWithId(es, Uid(AuthClients(es)[k].user))]
  ensures forall k, l :: 0 <= k < l < |AuthClients(es)| ==>
            FirstWithId(es, Uid(AuthClients(es)[k].user)) < FirstWithId(es, Uid(AuthClients(es)[l].user))
{
  DedupIds(es, {});
  DedupFirst(es, {});
  DedupOrdered(es, {});
}

/** `len(l)` of a list whose ids are pairwise distinct is the number of its ids. */
lemma {:induction false} DistinctIdsCount(s: seq<Entry>)
  requires forall k, l :: 0 <= k < l < |s| ==> Uid(s[k].user) != Uid(s[l].user)
  ensures |IdsOf(s)| == |s|
{
  if s != [] {
    DistinctIdsCount(s[1..]);
    assert IdsOf(s) == {Uid(s[0].user)} + IdsOf(s[1..]) by {
      assert forall e :: e in s <==> e == s[0] || e in s[1..];
    }
    assert Uid(s[0].user) !in IdsOf(s[1..]) by {
      forall e | e in s[1..] ensures Uid(e.user) != Uid(s[0].user) {
        var l :| 0 <= l < |s[1..]| && s[1..][l] == e;
        assert s[l + 1] == e;
      }
    }
  }
}

/** Filtering by room keeps ids pairwise distinct. */
lemma {:induction false} InRoomDistinct(cs: seq<Entry>, room: string)
  requires forall k, l :: 0 <= k < l < |cs| ==> Uid(cs[k].user) != Uid(cs[l].user)
  ensures forall k, l :: 0 <= k < l < |InRoom(cs, room)| ==>
            Uid(InRoom(cs, room)[k].user) != Uid(InRoom(cs, room)[l].user)
{
  if cs != [] {
    InRoomDistinct(cs[1..], room);
    InRoomMembers(cs[1..], room);
    var t := InRoom(cs[1..], room);
    forall j | 0 <= j < |t| ensures Uid(t[j].user) != Uid(cs[0].user) {
      assert t[j] in t;
      assert t[j] in cs[1..];
      var l :| 0 <= l < |cs[1..]| && cs[1..][l] == t[j];
      assert cs[l + 1] == t[j];
    }
  }
}

/** The ids counted for `room` are the truthy ids whose first record's consumer has joined `room`. */
lemma CountedIds(es: seq<Entry>, room: string)
  ensures IdsOf(InRoom(AuthClients(es), room)) ==
          set x | x in TruthyIds(es) && room in es[FirstWithId(es, x)].consumer.rooms
{
  CountedIdsAreFirstInRoom(es, room);
  FirstInRoomIdsAreCounted(es, room);
}

lemma CountedIdsAreFirstInRoom(es: seq<Entry>, room: string)
  ensures forall x :: x in IdsOf(InRoom(AuthClients(es), room)) ==>
            x in TruthyIds(es) && room in es[FirstWithId(es, x)].consumer.rooms
{
  var r := AuthClients(es);
  var f := InRoom(r, room);
  DedupFirst(es, {});
  InRoomMembers(r, room);
  forall x | x in IdsOf(f) ensures x in TruthyIds(es) && room in es[FirstWithId(es, x)].consumer.rooms {
    var e :| e in f && Uid(e.user) == x;
    var k :| 0 <= k < |r| && r[k] == e;
  }
}

lemma FirstInRoomIdsAreCounted(es: seq<Entry>, room: string)
  ensures forall x :: x in TruthyIds(es) && room in es[FirstWithId(es, x)].consumer.rooms ==>
            x in IdsOf(InRoom(AuthClients(es), room))
{
  var r := AuthClients(es);
  var f := InRoom(r, room);
  DedupIds(es, {});
  DedupFirst(es, {});
  InRoomMembers(r, room);
  forall x | x in TruthyIds(es) && room in es[FirstWithId(es, x)].consumer.rooms ensures x in IdsOf(f) {
    assert x in IdsOf(r);
    var e :| e in r && Uid(e.user) == x;
    var k :| 0 <= k < |r| && r[k] == e;
    assert e in f;
  }
}

/**
 * The room count is the number of distinct truthy user ids whose FIRST registered record belongs to a
 * consumer in `room`: a user whose first connection is elsewhere is not counted, even when a later
 * connection of theirs is in the room. It is never more than the number of records.
 */
lemma CountPersonIsFirstRecordsInRoom(es: seq<Entry>, room: string)
  ensures CountPerson(es, room) ==
          |set x | x in TruthyIds(es) && room in es[FirstWithId(es, x)].consumer.rooms|
  ensures CountPerson(es, room) <= |es|
{
  var r := AuthClients(es);
  DedupIds(es, {});
  InRoomDistinct(r, room);
  DistinctIdsCount(InRoom(r, room));
  CountedIds(es, room);
}

/** Removing a record of consumer `c` leaves one record of `c` fewer; adding one leaves one more. */
lemma {:induction false} EntriesOfUpdates(es: seq<Entry>, e: Entry, c: Consumer)
  ensures e in es ==> EntriesOf(RemoveFirst(es, e), c) == EntriesOf(es, c) - (if e.consumer == c then 1 else 0)
  ensures EntriesOf(es + [e], c) == EntriesOf(es, c) + (if e.consumer == c then 1 else 0)
  ensures EntriesOf(es, c) == 0 <==> forall d :: d in es ==> d.consumer != c
{
  if es != [] {
    EntriesOfUpdates(es[1..], e, c);
    assert (es + [e])[1..] == es[1..] + [e];
    assert forall d :: d in es <==> d == es[0] || d in es[1..];
    if e in es && es[0] != e {
      assert RemoveFirst(es, e) == [es[0]] + RemoveFirst(es[1..], e);
    }
  } else {
    assert [] + [e] == [e];
    assert [e][1..] == [];
  }
}

class Manager {
  var consumers: seq<Entry>

  constructor()
    ensures consumers == []
  {
    consumers := [];
  }

  /** `add_consumer`: appends a record (the consumer's current user, the consumer) at the end. */
  method AddConsumer(c: Consumer)
    modifies this
    ensures consumers == old(consumers) + [Entry(c.user, c)]
  {
    consumers := consumers + [Entry(c.user, c)];
  }

  /**
   * `remove_consumer`: deletes the first record equal to (the consumer's current user, the consumer);
   * `list.remove` raises ValueError when there is none.
   */
  method RemoveConsumer(c: Consumer) returns (r: Outcome)
    modifies this
    ensures Entry(c.user, c) in old(consumers) ==>
              r == Pass && consumers == RemoveFirst(old(consumers), Entry(c.user, c))
    ensures Entry(c.user, c) !in old(consumers) ==>
              r == Raised(ValueError) && consumers == old(consumers)
  {
    var e := Entry(c.user, c);
    if e in consumers {
      consumers := RemoveFirst(consumers, e);
      r := Pass;
    } else {
      r := Raised(ValueError);
    }
  }

  /**
   * `get_auth_clients`: the records whose user id is truthy, the first one of each id only, in registry
   * order; the ids kept are exactly the truthy ids of the registry.
   */
  method GetAuthClients() returns (clients: seq<Entry>)
    ensures clients == AuthClients(consumers)
  {
    var seen: set<int> := {};
    clients := [];
    for i := 0 to |consumers|
      invariant clients + Dedup(consumers[i..], seen) == AuthClients(consumers)
    {
      var obj := consumers[i];
      assert consumers[i..][0] == obj && consumers[i..][1..] == consumers[i + 1..];
      if Uid(obj.user) != 0 && Uid(obj.user) !in seen {
        AppendAssoc(clients, [obj], Dedup(consumers[i + 1..], seen + {Uid(obj.user)}));
        clients := clients + [obj];
        seen := seen + {Uid(obj.user)};
      }
    }
  }

  /** `get_auth_clients_room`: the records of `get_auth_clients` whose consumer has joined `room`, in order. */
  method GetAuthClientsRoom(room: string) returns (clients: seq<Entry>)
    ensures clients == InRoom(AuthClients(consumers), room)
  {
    var all := GetAuthClients();
    clients := [];
    for i := 0 to |all|
      invariant clients + InRoom(all[i..], room) == InRoom(all, room)
    {
      var picked := if room in all[i].consumer.rooms then [all[i]] else [];
      InRoomStep(all, i, room);
      AppendAssoc(clients, picked, InRoom(all[i + 1..], room));
      clients := clients + picked;
    }
  }

  /** `get_count_auth_clients`: the number of distinct truthy ids whose first record's consumer is in `room`. */
  method GetCountAuthClients(room: string) returns (n: nat)
    ensures n == CountPerson(consumers, room)
    ensures n == |set x | x in TruthyIds(consumers) && room in consumers[FirstWithId(consumers, x)].consumer.rooms|
    ensures n <= |consumers|
  {
    var clients := GetAuthClientsRoom(room);
    n := |clients|;
    CountPersonIsFirstRecordsInRoom(consumers, room);
  }
}

=== FILE: responses.dfy ===
/** The outbound response envelope: a name, a data object and a result tag. */
module Responses {
  import opened Json

  const SUCCESS: string := "success"
  const FAILED: string := "failed"

  /** A response envelope. The base class leaves the result tag free; the two subclasses fix it. */
  datatype Response = Response(response: string, data: Value, result: string)

  /** `SuccessResponse(response, data)`: the result tag is always "success". */
  function SuccessResponse(response: string, data: Value): (r: Response)
    ensures r.result == SUCCESS
    ensures r.response == response && r.data == data
  {
    Response(response, data, SUCCESS)
  }

  /** `FailedResponse(response, data)`: the result tag is always "failed". */
  function FailedResponse(response: string, data: Value): (r: Response)
    ensures r.result == FAILED
    ensures r.response == response && r.data == data
  {
    Response(response, data, FAILED)
  }

  /** `get_obj`: the mapping a response serializes from; reading it back gives the response, so nothing is lost. */
  function GetObj(r: Response): (m: map<string, Value>)
    ensures FromObj(m) == Some(r)
  {
    map["response" := Str(r.response), "data" := r.data, "result" := Str(r.result)]
  }

  /** What a receiver reads back from such a mapping: the inverse of `GetObj`. */
  function FromObj(m: map<string, Value>): Option<Response>
  {
    if "response" in m && "data" in m && "result" in m && m["response"].Str? && m["result"].Str?
    then Some(Response(m["response"].s, m["data"], m["result"].s))
    else None
  }

  /** The mapping has exactly the keys response, data and result, holding the response's three fields. */
  lemma GetObjShape(r: Response)
    ensures GetObj(r).Keys == {"response", "data", "result"}
    ensures GetObj(r)["response"] == Str(r.response) && GetObj(r)["data"] == r.data
    ensures GetObj(r)["result"] == Str(r.result)
  {
  }

  /** Hence two responses with the same mapping are the same response. */
  lemma GetObjInjective(a: Response, b: Response)
    ensures GetObj(a) == GetObj(b) <==> a == b
  {
    if GetObj(a) == GetObj(b) {
      assert Some(a) == FromObj(GetObj(a)) == FromObj(GetObj(b)) == Some(b);
    }
  }

  /** `__eq__`: two responses are equal when their (response, data, result) triples are. */
  predicate Equals(a: Response, b: Response)
    ensures Equals(a, b) <==> a == b
    ensures Equals(a, b) ==> a.result == b.result
  {
    (a.response, a.data, a.result) == (b.response, b.data, b.result)
  }

  /** A success and a failure are never equal, whatever their names and data. */
  lemma SuccessIsNeverFailure(n: string, d: Value, n': string, d': Value)
    ensures !Equals(SuccessResponse(n, d), FailedResponse(n', d'))
    ensures Equals(SuccessResponse(n, d), SuccessResponse(n', d')) <==> n == n' && d == d'
  {
  }
}

=== FILE: users.dfy ===
// manager.dfy, consumers.dfy and handlers.dfy refer to one another (the registry holds consumers and
// reads their rooms, a consumer owns handlers, a handler drives its consumer), so they share the
// default module; this file gives them their imports and the user type.

import opened Json
import opened Errors
import opened Lists
import opened Responses
import opened Channels

/** `scope["user"]`: Django's anonymous user, whose id is None, or a stored user. */
datatype User = AnonymousUser | StoredUser(id: int, username: string)

/**
 * The user's id as the registry tests it. The anonymous user's None is written 0: both are falsy,
 * and the registry only ever keeps truthy ids.
 */
function Uid(u: User): int
{
  if u.StoredUser? then u.id else 0
}

/** `user.is_authenticated`: true of every stored user, false of the anonymous one. */
predicate IsAuthenticated(u: User)
{
  u.StoredUser?
}
